=== FILE: README.md ===
# Weather widget core, modelled in Dafny

This project models the decision and arithmetic core of `script.js`, a single-page
browser widget that looks a country up by name (or takes the device location),
fetches a multi-day forecast for its coordinates and draws it as a line/bar chart.
The DOM, the network, geolocation and the canvas are replaced by plain values:
what a request returned is an input, what the page would show or draw is an output.

Modules (one file each):

- `Optional` (`optional.dfy`): `Option` for `undefined`/`null`, `Result` for a step that throws.
- `Text` (`text.dfy`): `String.prototype.trim` (ECMAScript white space and line terminators)
  and `toLowerCase` on ASCII letters.
- `Recent` (`recent.dfy`): `readRecent` / `pushRecent`, with the stored value as
  `Option<seq<string>>` (absent when the key was never written or was removed).
- `Series` (`series.dfy`): `Math.min` / `Math.max` over a non-empty series.
- `Units` (`units.dfy`): the stored unit preference and the °C → °F conversion.
- `Country` (`country.dfy`): choosing the best candidate in `doSearch` and extracting its coordinates.
- `Status` (`status.dfy`): `setStatus`' text table and colour.
- `Chart` (`chart.dfy`): `drawChart` — frame, x/temperature/precipitation scales,
  tick values, and the draw commands as a `Chart` value (gridlines, bars, two point
  series, day labels, tick labels, legend) in drawing order.
- `Weather` (`weather.dfy`): how `fetchWeather` reads the payload: current temperature,
  wind and rain-now, and the daily block; each missing field that would make the
  script throw a TypeError is an explicit error.
- `App` (`app.dfy`): the page's reactions as state transitions — `Search` (`doSearch`),
  `UseMyLocation`, `SelectUnit`, `ClearRecent`, `ReceiveWeather` (a settled weather
  request) — each returning the new state, the weather fetch it starts and the alert it raises.

Behaviour of the code that the model keeps deliberately:

- `pushRecent` filters with the *untrimmed* name but stores the trimmed one, so a name
  with surrounding blanks can leave a duplicate (`Recent.PushRecentUntrimmedDuplicate`).
  Duplicate-freedom is proved for trimmed names (`Recent.PushRecentKeepsDistinct`).
- `labels.length-1||1` is `-1` for zero labels, because `-1` is truthy (`Chart.Divisor`).
- A searched place whose coordinate pair holds a lone non-zero latitude is stored, but
  writing its coordinate label calls `toFixed` on a missing longitude, so the search ends
  in its catch: country status "error" and the not-found alert
  (`App.OneEntryPairFailsSearch`).
- Coordinates from a search need both `lat` and `lon` truthy, so a place at latitude or
  longitude 0 gets "No coordinates"; device coordinates are used as given
  (`App.ZeroLatitudeOnlyBlocksSearch`).
- With no labels the bar width is not finite, and with no temperatures the tick positions
  are not finite; the canvas ignores such `fillRect`/`fillText` calls, so the model draws
  nothing there (`Chart.Bars`, `Chart.Temperatures`).
- Some behaviour a reader might not expect is kept as written: pressing a unit
  button fetches the weather again whenever coordinates are known (`App.SelectUnit`);
  there is no guard against a late response overwriting a newer one
  (`App.LateResponseOverwrites`); a payload with a missing daily block is not rejected
  up front but makes the chart step throw, leaving a cleared canvas and the status
  "error" (`App.ReceiveWeather`); daily arrays hold plain numbers, not absent markers.

## Model

| member | source | states |
|---|---|---|
| Text.Trim | script.js:49 | the trimmed text neither starts nor ends with white space, and it is empty exactly when the input is all white space |
| Text.TrimIsInfix | script.js:49 | trimming cuts only white space from the two ends and keeps the run between them unchanged |
| Text.TrimIdempotent | script.js:32 | trimming a trimmed string changes nothing |
| Text.ToLower | script.js:31 | lower-casing keeps the length, maps every upper-case letter to its lower-case partner and keeps every other character |
| Recent.ReadRecent | script.js:29 | the list read is the stored list, or empty when nothing is stored |
| Recent.Without | script.js:31 | the filter keeps exactly the entries that differ from the name ignoring case (every kept entry differs, every differing entry is kept, nothing new appears) |
| Recent.WithoutConcat | script.js:31 | the filter distributes over concatenation, so kept entries stay in their original relative order |
| Recent.WithoutSingle | script.js:31 | a single entry is dropped exactly when it equals the name ignoring case |
| Recent.WithoutKeepsDistinct | script.js:31 | filtering a list without case-insensitive duplicates keeps it without duplicates |
| Recent.PushRecent | script.js:30-33 | the new list starts with the trimmed name, its other entries all differ from the name ignoring case and are the first entries of the filtered old list in order, and its length is one more than the filtered list's, capped at 5; when shorter than 5 it kept every non-matching entry |
| Recent.PushRecentIdempotent | script.js:30-33 | pushing the same trimmed name twice gives the same list as pushing it once |
| Recent.PushRecentKeepsDistinct | script.js:31-33 | pushing a trimmed name keeps the list free of case-insensitive duplicates |
| Recent.PushRecentExample | script.js:30-33 | pushing "india", "India", "Japan" onto an empty list leaves ["Japan", "India"] |
| Recent.PushRecentUntrimmedDuplicate | script.js:31-32 | pushing "India " onto ["India"] stores "India" twice, since the filter uses the untrimmed name |
| Series.Min | script.js:115 | the minimum occurs in the series and no element is smaller |
| Series.Max | script.js:115 | the maximum occurs in the series and no element is larger |
| Units.UnitCode | script.js:18-21 | the C button stores "C" and the F button stores "F", and no other code |
| Units.LoadUnit | script.js:13 | the unit at start-up is Celsius exactly when nothing, the empty string or "C" is stored |
| Units.LoadUnitRoundTrip | script.js:21 | a unit written by a unit button is read back as that unit |
| Units.ToDisplay | script.js:112-113 | conversion is the identity in Celsius, and in Fahrenheit the inverse formula gives back the Celsius value |
| Units.ToDisplayStrictlyIncreasing | script.js:112-113 | conversion preserves the order of temperatures |
| Units.ConvertAll | script.js:112-113 | the converted series has the input's length and converts each element in place |
| Units.ConvertMin | script.js:112-115 | the minimum of the converted series is the converted minimum |
| Units.ConvertMax | script.js:112-115 | the maximum of the converted series is the converted maximum |
| Country.SelectBest | script.js:54-55 | the first candidate whose name equals the query ignoring case is chosen, otherwise the first candidate; an empty list, and only an empty list, is an error |
| Country.FindMatch | script.js:54 | the index found matches and no earlier index does; no index means no candidate matches |
| Country.ExtractCoords | script.js:56-57 | coordinates exist exactly when the pair has two entries, both non-zero, and then they are those two entries |
| Country.ExtractCoordsRoundTrip | script.js:56-57 | a `[lat, lon]` pair gives back its coordinates exactly when neither is zero |
| Country.LatLonLabelThrows | script.js:63 | the coordinate label throws exactly for a one-entry pair with a non-zero entry, and such a pair never has coordinates |
| Country.SelectBestPrefersExactMatch | script.js:54 | "France" picks the "France" record over an earlier "French Republic" |
| Country.SelectBestEmptyFails | script.js:54-55 | an empty candidate list fails |
| Status.StatusText | script.js:142-144 | the four known codes show fixed texts and any other code the script passes is shown verbatim |
| Status.StatusColour | script.js:145 | the colour is the danger colour exactly for "error" and the accent exactly for "ok" |
| Chart.MakeFrame | script.js:107 | the width is the element's client width, or 900 when that is 0; the height is the canvas height |
| Chart.Divisor | script.js:116 | the x divisor is -1 for no labels, 1 for one label and one less than the label count otherwise, so never zero |
| Chart.X | script.js:116 | the first day is at the left plot edge and, with two or more days, the last at the right edge |
| Chart.XFirst | script.js:116 | the first day is at the left plot edge |
| Chart.XLast | script.js:116 | with two or more days the last day is at the right plot edge |
| Chart.XSpacing | script.js:116 | neighbouring days are one fixed step apart, also with no labels, where the step is -chartW |
| Chart.XStrictlyIncreasing | script.js:116 | on a plot of positive width later days are further right |
| Chart.XWithinPlot | script.js:116 | every day's x lies between the left and right plot edges |
| Chart.TempDomain | script.js:115 | the domain is at least 4 wide, holds every value with 2 to spare on each side, and is tight |
| Chart.YT | script.js:117 | the domain's bottom is drawn on the baseline and its top on the top edge |
| Chart.YTEndpoints | script.js:117 | the domain's bottom maps to the plot's bottom edge and its top to the top edge |
| Chart.YTStrictlyDecreasing | script.js:117 | on a plot of positive height warmer values are drawn higher |
| Chart.YTNonIncreasing | script.js:117 | a value at least as warm is drawn no lower |
| Chart.YTWithinPlot | script.js:117 | every value in the domain is drawn inside the plot area |
| Chart.Ticks | script.js:138 | five tick values start at the domain bottom, end at its top and are evenly spaced |
| Chart.PrecipCeiling | script.js:115 | the precipitation ceiling is at least 1, at least every amount, and is 1 or one of the amounts |
| Chart.YP | script.js:118 | zero is drawn on the baseline and the ceiling on the top edge |
| Chart.YPEndpoints | script.js:118 | zero precipitation is on the baseline and the ceiling on the top edge |
| Chart.YPWithinPlot | script.js:118 | every amount between zero and the ceiling is drawn inside the plot area |
| Chart.GridLines | script.js:121-122 | one gridline per label, at that day's x, spanning the plot height |
| Chart.Bar | script.js:126 | a bar is centred on its day, is the plot width over 1.6 times the day count wide, stands on the baseline, and its height is the amount's share of the ceiling times the plot height |
| Chart.Bars | script.js:125-126 | one bar per precipitation entry (none without labels), each the bar of its amount on the precipitation ceiling: on the baseline, centred on its day, tops inside the plot for non-negative amounts |
| Chart.SeriesPoints | script.js:129-131 | one point per value, at the day's x and the value's height, inside the plot area |
| Chart.TickLabels | script.js:138 | five tick labels from the domain bottom to its top, evenly spaced, each placed at its own height |
| Chart.Legend | script.js:139 | the three legend texts "High", "Low" and "Precip", 14 below the top padding, at 8, 60 and 108 right of the left padding |
| Chart.Temperatures | script.js:112-131 | one point per high and per low, each at its day's x and at the height of its converted reading on the shared domain, all inside the plot; five ticks exactly when there is a temperature, running from the converted coldest reading minus 2 to the converted warmest plus 2; the tick labels are those of that domain |
| Chart.ConvertedDomain | script.js:112-115 | the domain of the converted readings is the Celsius extremes converted and padded |
| Chart.DayLabels | script.js:137 | one weekday label per date, under that day |
| Chart.Render | script.js:105-140 | one gridline and weekday label per date, one bar per precipitation entry when there are dates, one point per high and per low, five tick labels exactly when there is a temperature, three legend entries; the bars are exactly those of the precipitation entries and the points and tick labels those of the temperature layer |
| Chart.RenderAlignsDays | script.js:116-131 | the gridline, weekday label, bar centre and temperature points of day i all sit at x(i) |
| Chart.RenderInsidePlot | script.js:117-131 | every temperature point lies inside the plot area and every bar stands on the baseline |
| Chart.DomainCoversBoth | script.js:115 | the shared temperature domain holds every high and every low |
| Chart.RenderBars | script.js:125-126 | the drawn bar of day i is the bar of its amount: `chartW/(n*1.6)` wide, centred on x(i), from the baseline up to its share of the ceiling |
| Chart.RenderTicks | script.js:115-138 | the drawn tick labels are those of the converted Celsius extremes padded by 2: five values evenly from bottom to top, each at its own height |
| Chart.RenderHeights | script.js:117-131 | every drawn high and every drawn low, whatever the other series' length, is its converted reading placed on the shared domain |
| Chart.HighNotBelowLow | script.js:129-133 | a day's high is drawn no lower than its low whenever the high is at least the low |
| Weather.IndexOf | script.js:96 | the index is -1 exactly when the timestamp is missing or absent, otherwise the position of its first occurrence (no earlier entry equals it) |
| Weather.AmountAt | script.js:99 | a missing hourly amount reads as 0 |
| Weather.CurrentTemp | script.js:95-97 | the current temperature is shown exactly when present, converted to the display unit |
| Weather.CurrentWind | script.js:95 | the wind is shown exactly when present, and it is the payload's wind speed |
| Weather.ShowCurrent | script.js:95-99 | an hourly block without times throws before anything is written; otherwise temperature and wind are written; rain is absent without an hourly block or without a matching time, and nothing throws then; a matching time shows an amount when amounts exist and otherwise throws with the old rain left in place |
| Weather.RainIsHourlyAmountAtNow | script.js:96-99 | rain now is the hourly amount at the first index of the current timestamp, 0 when missing |
| Weather.DailyOf | script.js:111-114 | the chart's inputs are read exactly when the daily block and its four arrays are all present |
| App.StartFetch | script.js:92 | a started weather fetch shows "Loading…" on the weather status and changes nothing else |
| App.Resolve | script.js:53-55 | a candidate array is resolved by the selection rule; a failed request or a non-array answer is an error |
| App.Search | script.js:48-72 | a blank query changes nothing; a failed resolution sets the country status to error, resets the weather status to "—" and alerts; a place whose pair holds only a non-zero latitude is stored without coordinates and then fails like a failed resolution; any other resolved place replaces country and coordinates and changes nothing but the two statuses and the recent list; a place without coordinates shows "No coordinates"; the recent list changes and a weather fetch starts exactly for a place with coordinates, and a started fetch shows the weather status as loading |
| App.UseMyLocation | script.js:74-87 | unsupported geolocation only alerts, a denied one marks the weather status as error and alerts, a fix sets the coordinates and fetches, showing the weather status as loading, and changes nothing else; country and recent list never change |
| App.SelectUnit | script.js:18-24 | the unit is switched and stored so that it is read back, and the weather is fetched again, with the weather status loading, exactly when coordinates are known; nothing else changes and nothing is alerted |
| App.ClearRecent | script.js:9 | the stored list is removed and nothing else changes |
| App.ReceiveWeather | script.js:90-102 | a failed request marks the status error; a payload is stored; status is ok and the chart drawn exactly when the current block reads and the daily block is complete; otherwise error, with a blank canvas if the daily block was missing and the old chart if the current block threw; the "now" figures are those the current block yields; nothing but forecast, weather status, "now" figures and canvas changes |
| App.Apply | script.js:5-24 | only a search changes the country, only a search or the clear button the recent list, only a unit button the unit; responses and the clear button neither fetch nor alert; a started fetch targets the current coordinates and shows loading |
| App.ApplyKeepsRecentBounded | script.js:33 | no action makes the stored recent list longer than five |
| App.ApplyKeepsRecentDistinct | script.js:66 | no action introduces case-insensitive duplicates into the stored list while pushed place names are trimmed |
| App.ZeroLatitudeOnlyBlocksSearch | script.js:56-78 | a searched place at latitude 0 gets "No coordinates" and no fetch, while a device fix at latitude 0 is fetched |
| App.OneEntryPairFailsSearch | script.js:56-70 | a searched place whose pair is a lone non-zero latitude is stored, then the search reports "error" and alerts, with the weather status left at "—" |
| App.LateResponseOverwrites | script.js:94 | a response arriving after a newer search still replaces the stored forecast |

## Left out

- Status.StatusText, Status.StatusColour: a code naming an inherited `Object.prototype`
  member ("toString", "constructor", "__proto__") would look up that member instead of
  passing through; the script only passes the four known codes and "No coordinates" and
  "locating…", so this case is not modelled.
- App.Search, App.UseMyLocation: each user action and the response to its request form
  one event, so a weather response that arrives while a country lookup or a location
  request is still pending is not interleaved with it (the statuses the action sets
  before its `await` are overwritten in the same step).
- DOM writes (country name, capital, region, population, flag, "now" text formatting),
  the recent-list chips, event binding, `setUnitButtons` and the `alert` dialogs
  (script.js:1-26, 36-45, 58-64, 79-83): interface plumbing; alerts are returned as text.
- `localStorage` and JSON (script.js:13, 29, 33): the stored values are passed in and
  returned; a corrupt stored list that `JSON.parse` rejects is not modelled.
- `fetch`, URL construction and `encodeURIComponent` (script.js:53, 93, 147): what a
  request returned is an input; the async ordering is a sequence of `App.Event`s.
- The canvas context, colours, dash patterns, `arc`, `stroke` and `clearRect`
  (script.js:106-109, 121-139): only positions and sizes of what is drawn are kept.
- `toFixed`, `toLocaleString` and the weekday text of `toLocaleDateString`: labels carry
  their value or day position, not their formatted text.
- Text.ToLower: folds ASCII letters only, because full Unicode case mapping has no
  counterpart here; names outside ASCII compare case-sensitively in the model.
- IEEE-754 arithmetic: the model computes over exact reals, so rounding, NaN (falsy in
  `lat && lon`) and infinities are not represented; non-finite draw calls are modelled
  by their effect (nothing drawn).
- `null` entries inside the daily arrays (converted to 32 °F by `c*9/5+32`) are not
  modelled; daily arrays hold numbers.
- The start-up call (script.js:149) that fills the search box from the recent list or
  "India" and searches.

=== FILE: app.dfy ===
/** The script's control flow as state transitions: `doSearch`, `useMyLocation`, the
    unit buttons, the clear-recent button, and the arrival of a weather response
    (`fetchWeather`). Each user action returns the new state, the coordinates of the
    weather fetch it starts (if any) and the alert it raises (if any). */
module App {
  import opened Optional
  import opened Text
  import opened Units
  import opened Country
  import opened Recent
  import opened Weather
  import Chart
  import Status

  /** `state`, the `unit` variable, the two stored keys, the two status codes, the
      "now" figures and the chart currently on the canvas (`None` once cleared). */
  datatype AppState = AppState(
    country: Option<Place>,
    coords: Option<Coords>,
    forecast: Option<Payload>,
    unit: Unit,
    storedUnit: Option<string>,
    recent: Option<seq<string>>,
    statusCountry: string,
    statusWeather: string,
    readings: Readings,
    chart: Option<Chart.Chart>)

  datatype Step = Step(state: AppState, fetch: Option<Coords>, alert: Option<string>)

  const CountryNotFound: string := "Country not found. Try a different name."
  const NoGeolocation: string := "Geolocation not supported"
  const LocationFailed: string := "Could not get your location"

  /** `fetchWeather` marks the weather status as loading before it awaits the response;
      nothing else changes until the response arrives. */
  function StartFetch(s: AppState): (t: AppState)
    ensures Status.StatusText(t.statusWeather) == "Loading…"
    ensures t == s.(statusWeather := t.statusWeather)
  {
    s.(statusWeather := "loading")
  }

  /** The place a lookup resolves to, or the error that sends `doSearch` to its catch. */
  function Resolve(q: string, l: Lookup): (r: Result<Place, SearchError>)
    ensures l.Candidates? ==> r == SelectBest(q, l.places)
    ensures !l.Candidates? ==> r.Err?
  {
    match l
    case Candidates(data) => SelectBest(q, data)
    case _ => Err(NotFound)
  }

  /** `doSearch()` with search-box text `input`, given what the country request returned. */
  function Search(s: AppState, input: string, l: Lookup): (st: Step)
    // A blank query does nothing at all.
    ensures AllWhite(input) ==> st == Step(s, None, None)
    // A failed resolution marks the country status as failed, resets the weather status
    // and alerts.
    ensures !AllWhite(input) && Resolve(Trim(input), l).Err? ==>
      st == Step(s.(statusCountry := "error", statusWeather := "—"), None, Some(CountryNotFound))
    // A place whose pair holds only a non-zero latitude is stored, but writing its
    // coordinate label throws, which the search reports as a failure.
    ensures !AllWhite(input) && Resolve(Trim(input), l).Ok? && LatLonLabelThrows(Resolve(Trim(input), l).value.latlng) ==>
      st == Step(s.(country := Some(Resolve(Trim(input), l).value), coords := None, statusCountry := "error",
                    statusWeather := "—"), None, Some(CountryNotFound))
    // Any other resolved place replaces the country and the coordinates.
    ensures !AllWhite(input) && Resolve(Trim(input), l).Ok? && !LatLonLabelThrows(Resolve(Trim(input), l).value.latlng) ==>
      var best := Resolve(Trim(input), l).value;
      && st.state.country == Some(best)
      && st.state.coords == ExtractCoords(best.latlng)
      && st.state.statusCountry == "ok"
      && st.alert.None?
      && st.fetch == st.state.coords
      && st.state == s.(country := Some(best), coords := ExtractCoords(best.latlng), statusCountry := "ok",
                        statusWeather := st.state.statusWeather, recent := st.state.recent)
    // A place without usable coordinates is reported as such on the weather status.
    ensures (!AllWhite(input) && Resolve(Trim(input), l).Ok? && !LatLonLabelThrows(Resolve(Trim(input), l).value.latlng)
      && ExtractCoords(Resolve(Trim(input), l).value.latlng).None?) ==>
      st.state.statusWeather == "No coordinates"
    // The recent list changes, and a weather fetch starts, only for a place with coordinates.
    ensures st.fetch.Some? ==> (st.state.country.Some?
      && st.state.recent == Some(PushRecent(ReadRecent(s.recent), st.state.country.value.commonName)))
    ensures st.fetch.None? ==> st.state.recent == s.recent
    ensures st.fetch.Some? ==> st.state.statusWeather == "loading"
  {
    var q := Trim(input);
    if q == [] then Step(s, None, None)
    else
      var s1 := s.(statusCountry := "loading", statusWeather := "—");
      match Resolve(q, l)
      case Err(_) => Step(s1.(statusCountry := "error"), None, Some(CountryNotFound))
      case Ok(best) =>
        var coords := ExtractCoords(best.latlng);
        var s2 := s1.(country := Some(best), coords := coords, statusCountry := "ok");
        if LatLonLabelThrows(best.latlng) then
          Step(s1.(country := Some(best), coords := coords, statusCountry := "error"), None, Some(CountryNotFound))
        else if coords.Some? then
          var s3 := s2.(recent := Some(PushRecent(ReadRecent(s.recent), best.commonName)));
          Step(StartFetch(s3), coords, None)
        else
          Step(s2.(statusWeather := "No coordinates"), None, None)
  }

  /** What the geolocation call yielded. */
  datatype Geo = Unsupported | Denied | Fix(lat: real, lon: real)

  /** `useMyLocation()`: device coordinates are used as given (zero included); the
      country and the recent list are left alone. */
  function UseMyLocation(s: AppState, g: Geo): (st: Step)
    ensures g.Unsupported? ==> st == Step(s, None, Some(NoGeolocation))
    ensures g.Denied? ==> st == Step(s.(statusWeather := "error"), None, Some(LocationFailed))
    ensures g.Fix? ==> (st.fetch == Some(Coords(g.lat, g.lon)) && st.state.coords == st.fetch
      && st.alert.None?)
    ensures g.Fix? ==> st.state == s.(coords := st.state.coords, statusWeather := st.state.statusWeather)
    ensures st.state.country == s.country && st.state.recent == s.recent
    ensures st.fetch.Some? ==> st.state.statusWeather == "loading"
  {
    match g
    case Unsupported => Step(s, None, Some(NoGeolocation))
    case Denied => Step(s.(statusWeather := "error"), None, Some(LocationFailed))
    case Fix(lat, lon) =>
      var s1 := s.(statusWeather := "locating…", coords := Some(Coords(lat, lon)));
      Step(StartFetch(s1), Some(Coords(lat, lon)), None)
  }

  /** A unit button: the unit is switched and stored, and the weather is fetched again
      whenever coordinates are known. */
  function SelectUnit(s: AppState, u: Unit): (st: Step)
    ensures st.state.unit == u && LoadUnit(st.state.storedUnit) == u
    ensures st.fetch == s.coords
    ensures st.state.statusWeather == (if s.coords.Some? then "loading" else s.statusWeather)
    ensures st.state == s.(unit := u, storedUnit := st.state.storedUnit, statusWeather := st.state.statusWeather)
    ensures st.alert.None?
  {
    LoadUnitRoundTrip(u);
    var s1 := s.(unit := u, storedUnit := Some(UnitCode(u)));
    Step(if s.coords.Some? then StartFetch(s1) else s1, s.coords, None)
  }

  /** The clear button removes the stored list. */
  function ClearRecent(s: AppState): (t: AppState)
    ensures ReadRecent(t.recent) == []
    ensures t == s.(recent := t.recent)
  {
    s.(recent := None)
  }

  /** What the weather request produced. */
  datatype WeatherResponse = WeatherFailed | Forecast(payload: Payload)

  /** `fetchWeather` once its request settles, drawing on frame `f`. */
  function ReceiveWeather(s: AppState, r: WeatherResponse, f: Chart.Frame): (t: AppState)
    ensures r.WeatherFailed? ==> t == s.(statusWeather := "error")
    ensures r.Forecast? ==> t.forecast == Some(r.payload)
    ensures t.statusWeather == "ok" || t.statusWeather == "error"
    // The chart is drawn exactly on success, from the daily block in the current unit.
    ensures t.statusWeather == "ok" <==>
      r.Forecast? && !ShowCurrent(s.readings, r.payload, s.unit).threw && DailyOf(r.payload).Ok?
    ensures t.statusWeather == "ok" ==>
      t.chart == Some(Chart.Render(f, DailyOf(r.payload).value, s.unit))
    // Once the payload was read past the current block, a missing daily block leaves the canvas blank.
    ensures r.Forecast? && !ShowCurrent(s.readings, r.payload, s.unit).threw && DailyOf(r.payload).Err?
      ==> t.chart.None?
    // The "now" figures are those the current block yields; if reading it threw, the
    // canvas keeps what it showed.
    ensures r.Forecast? ==> t.readings == ShowCurrent(s.readings, r.payload, s.unit).readings
    ensures r.Forecast? && ShowCurrent(s.readings, r.payload, s.unit).threw ==> t.chart == s.chart
    // Nothing but the forecast, the weather status, the "now" figures and the canvas changes.
    ensures t == s.(forecast := t.forecast, statusWeather := t.statusWeather, readings := t.readings, chart := t.chart)
  {
    match r
    case WeatherFailed => s.(statusWeather := "error")
    case Forecast(w) =>
      var s1 := s.(statusWeather := "loading", forecast := Some(w));
      var shown := ShowCurrent(s.readings, w, s.unit);
      var s2 := s1.(readings := shown.readings);
      if shown.threw then s2.(statusWeather := "error")
      else match DailyOf(w)
        case Err(_) => s2.(statusWeather := "error", chart := None)
        case Ok(d) => s2.(statusWeather := "ok", chart := Some(Chart.Render(f, d, s.unit)))
  }

  /** Every user action and response the page reacts to. */
  datatype Event =
    | Submit(input: string, lookup: Lookup)
    | Locate(geo: Geo)
    | PickUnit(unit: Unit)
    | Clear
    | WeatherArrived(response: WeatherResponse, frame: Chart.Frame)

  /** One event. Only a search changes the country; only a search or the clear button
      touch the recent list; only the unit buttons touch the unit; responses and the
      clear button neither fetch nor alert. */
  function Apply(s: AppState, e: Event): (st: Step)
    ensures !e.Submit? ==> st.state.country == s.country
    ensures !e.Submit? && !e.Clear? ==> st.state.recent == s.recent
    ensures !e.PickUnit? ==> st.state.unit == s.unit && st.state.storedUnit == s.storedUnit
    ensures e.Clear? || e.WeatherArrived? ==> st.fetch.None? && st.alert.None?
    ensures st.fetch.Some? ==> st.state.coords == st.fetch && st.state.statusWeather == "loading"
  {
    match e
    case Submit(input, l) => Search(s, input, l)
    case Locate(g) => UseMyLocation(s, g)
    case PickUnit(u) => SelectUnit(s, u)
    case Clear => Step(ClearRecent(s), None, None)
    case WeatherArrived(r, f) => Step(ReceiveWeather(s, r, f), None, None)
  }

  /** The stored recent list never holds more than five names, whatever happens. */
  lemma ApplyKeepsRecentBounded(s: AppState, e: Event)
    requires |ReadRecent(s.recent)| <= Capacity
    ensures |ReadRecent(Apply(s, e).state.recent)| <= Capacity
  {
  }

  /** The stored recent list stays free of case-insensitive duplicates as long as the
      place names pushed carry no surrounding white space. */
  lemma ApplyKeepsRecentDistinct(s: AppState, e: Event)
    requires DistinctIgnoringCase(ReadRecent(s.recent))
    requires e.Submit? && e.lookup.Candidates? ==> forall p :: p in e.lookup.places ==> Trim(p.commonName) == p.commonName
    ensures DistinctIgnoringCase(ReadRecent(Apply(s, e).state.recent))
  {
    if e.Submit? {
      var st := Search(s, e.input, e.lookup);
      if st.fetch.Some? {
        var best := Resolve(Trim(e.input), e.lookup).value;
        assert best in e.lookup.places;
        PushRecentKeepsDistinct(ReadRecent(s.recent), best.commonName);
      }
    }
  }

  /** A place whose latitude is exactly 0 is never fetched through the search, while
      device coordinates with latitude 0 are. */
  lemma ZeroLatitudeOnlyBlocksSearch(s: AppState, input: string, p: Place, lon: real)
    requires !AllWhite(input) && p.latlng == Some([0.0, lon])
    ensures Search(s, input, Candidates([p])).fetch.None?
    ensures Search(s, input, Candidates([p])).state.statusWeather == "No coordinates"
    ensures UseMyLocation(s, Fix(0.0, lon)).fetch == Some(Coords(0.0, lon))
  {
    assert SelectBest(Trim(input), [p]) == Ok(p);
  }

  /** A place whose coordinate pair holds only a non-zero latitude fails the search
      after being stored: the country status reads error and the alert is raised, while
      the weather status keeps the "—" set at the start. */
  lemma OneEntryPairFailsSearch(s: AppState, input: string, p: Place, lat: real)
    requires !AllWhite(input) && p.latlng == Some([lat]) && lat != 0.0
    ensures Search(s, input, Candidates([p])) == Step(s.(country := Some(p), coords := None,
      statusCountry := "error", statusWeather := "—"), None, Some(CountryNotFound))
  {
    assert SelectBest(Trim(input), [p]) == Ok(p);
  }

  /** A weather response arriving after the user started another search still
      overwrites the forecast: nothing ties a response to the request that caused it. */
  lemma LateResponseOverwrites(s: AppState, input: string, l: Lookup, w: Payload, f: Chart.Frame)
    ensures ReceiveWeather(Search(s, input, l).state, Forecast(w), f).forecast == Some(w)
  {
  }
}

=== FILE: chart.dfy ===
/** The arithmetic of `drawChart`: the plot frame, the three scale maps (day → x,
    temperature → y, precipitation → y), the tick values, and the drawing commands
    issued, as a pure description instead of canvas side effects. */
module Chart {
  import opened Series
  import opened Units

  const PadL: real := 44.0
  const PadR: real := 20.0
  const PadT: real := 20.0
  const PadB: real := 34.0
  /** Canvas width used when the element reports a client width of 0. */
  const DefaultWidth: nat := 900
  /** Temperature-axis padding on each side, in display units. */
  const TempPad: real := 2.0
  /** Number of intervals between the temperature tick labels (five labels). */
  const TickSteps: nat := 4

  /** The canvas size: `W = cv.clientWidth || 900`, `H = cv.height`. */
  datatype Frame = Frame(width: real, height: real)

  function MakeFrame(clientWidth: nat, height: nat): (f: Frame)
    ensures clientWidth != 0 ==> f.width == clientWidth as real
    ensures clientWidth == 0 ==> f.width == DefaultWidth as real
    ensures f.height == height as real
  {
    Frame(if clientWidth == 0 then DefaultWidth as real else clientWidth as real, height as real)
  }

  function ChartW(f: Frame): real { f.width - PadL - PadR }
  function ChartH(f: Frame): real { f.height - PadT - PadB }
  /** The bottom edge of the plot area, where precipitation bars stand. */
  function Baseline(f: Frame): real { PadT + ChartH(f) }

  // ---------------------------------------------------------------- x scale

  /** `labels.length - 1 || 1`: never zero; for no labels at all it is -1, because
      -1 is truthy. */
  function Divisor(n: nat): (d: int)
    ensures d != 0
    ensures n >= 1 ==> d >= 1
    ensures n == 0 ==> d == -1
    ensures n == 1 ==> d == 1
    ensures n >= 2 ==> d == n - 1
  {
    if n - 1 == 0 then 1 else n - 1
  }

  /** `x(i)`: the horizontal position of day `i` of `n`. */
  function X(f: Frame, n: nat, i: int): (x: real)
    ensures i == 0 ==> x == PadL
    ensures n >= 2 && i == n - 1 ==> x == PadL + ChartW(f)
  {
    var d := Divisor(n) as real;
    assert n >= 2 ==> (n - 1) as real * (ChartW(f) / d) == ChartW(f);
    PadL + (i as real) * (ChartW(f) / d)
  }

  /** The first day sits on the left edge of the plot. */
  lemma XFirst(f: Frame, n: nat)
    ensures X(f, n, 0) == PadL
  {
  }

  /** With two or more days the last one sits on the right edge. */
  lemma XLast(f: Frame, n: nat)
    requires n >= 2
    ensures X(f, n, n - 1) == PadL + ChartW(f)
  {
    var d := (n - 1) as real;
    assert d * (ChartW(f) / d) == ChartW(f);
  }

  /** Days are evenly spaced: neighbours are a fixed step apart. */
  lemma XSpacing(f: Frame, n: nat, i: int)
    ensures X(f, n, i + 1) - X(f, n, i) == ChartW(f) / (Divisor(n) as real)
  {
  }

  /** On a plot of positive width, later days lie further right. */
  lemma XStrictlyIncreasing(f: Frame, n: nat, i: int, j: int)
    requires n >= 1 && ChartW(f) > 0.0 && i < j
    ensures X(f, n, i) < X(f, n, j)
  {
    var step := ChartW(f) / (Divisor(n) as real);
    assert Divisor(n) >= 1;
    assert step > 0.0;
    var gap := (j - i) as real;
    assert gap * step > 0.0;
    assert X(f, n, i) == PadL + (i as real) * step;
    assert X(f, n, j) == PadL + (i as real) * step + gap * step;
  }

  /** Every day of the series lies between the left and right edges of the plot. */
  lemma XWithinPlot(f: Frame, n: nat, i: int)
    requires 0 <= i < n && ChartW(f) >= 0.0
    ensures PadL <= X(f, n, i) <= PadL + ChartW(f)
  {
    var d := Divisor(n) as real;
    var step := ChartW(f) / d;
    assert step >= 0.0;
    assert (i as real) * step >= 0.0;
    if n >= 2 {
      XLast(f, n);
      assert ((n - 1) as real) * step - (i as real) * step == ((n - 1 - i) as real) * step;
      assert ((n - 1 - i) as real) * step >= 0.0;
    }
  }

  // ---------------------------------------------------------------- temperature scale

  /** The temperature domain `[tMinV, tMaxV]`. */
  datatype Domain = Domain(lo: real, hi: real)

  /** `Math.min(...tVals) - 2` and `Math.max(...tVals) + 2`: the tightest range holding
      every value, padded by 2 on each side, so at least 4 wide. */
  function TempDomain(vals: seq<real>): (d: Domain)
    requires |vals| > 0
    ensures d.hi - d.lo >= 2.0 * TempPad
    ensures forall i :: 0 <= i < |vals| ==> d.lo + TempPad <= vals[i] <= d.hi - TempPad
    ensures d.lo + TempPad in vals && d.hi - TempPad in vals
  {
    Domain(Min(vals) - TempPad, Max(vals) + TempPad)
  }

  /** `yT(v)`: the inverted temperature axis. */
  function YT(f: Frame, d: Domain, v: real): (y: real)
    requires d.lo < d.hi
    ensures v == d.lo ==> y == Baseline(f)
    ensures v == d.hi ==> y == PadT
  {
    assert (d.hi - d.lo) / (d.hi - d.lo) == 1.0;
    PadT + (1.0 - (v - d.lo) / (d.hi - d.lo)) * ChartH(f)
  }

  /** The bottom of the domain maps to the bottom edge, the top to the top edge. */
  lemma YTEndpoints(f: Frame, d: Domain)
    requires d.lo < d.hi
    ensures YT(f, d, d.lo) == Baseline(f)
    ensures YT(f, d, d.hi) == PadT
  {
    assert (d.hi - d.lo) / (d.hi - d.lo) == 1.0;
  }

  /** On a plot of positive height, warmer is drawn higher (smaller y). */
  lemma YTStrictlyDecreasing(f: Frame, d: Domain, v: real, w: real)
    requires d.lo < d.hi && ChartH(f) > 0.0 && v < w
    ensures YT(f, d, w) < YT(f, d, v)
  {
    var span := d.hi - d.lo;
    var tv, tw := (v - d.lo) / span, (w - d.lo) / span;
    assert tw - tv == (w - v) / span;
    assert tw - tv > 0.0;
    assert (1.0 - tv) * ChartH(f) - (1.0 - tw) * ChartH(f) == (tw - tv) * ChartH(f);
    assert (tw - tv) * ChartH(f) > 0.0;
  }

  /** A value inside the domain is drawn inside the plot area. */
  lemma YTWithinPlot(f: Frame, d: Domain, v: real)
    requires d.lo < d.hi && d.lo <= v <= d.hi && ChartH(f) >= 0.0
    ensures PadT <= YT(f, d, v) <= Baseline(f)
  {
    var t := (v - d.lo) / (d.hi - d.lo);
    RatioInUnit(v - d.lo, d.hi - d.lo);
    assert 0.0 <= (1.0 - t) * ChartH(f) <= ChartH(f);
  }

  /** A part of a positive whole is a fraction between 0 and 1. */
  lemma RatioInUnit(a: real, b: real)
    requires 0.0 <= a <= b && b > 0.0
    ensures 0.0 <= a / b <= 1.0
  {
    var t := a / b;
    assert t * b == a;
    assert (1.0 - t) * b == b - a;
  }

  /** `tMinV + (s/4) * (tMaxV - tMinV)` for `s = 0 .. 4`. */
  function Ticks(d: Domain): (t: seq<real>)
    ensures |t| == TickSteps + 1
    ensures t[0] == d.lo && t[TickSteps] == d.hi
    ensures forall s :: 0 <= s < TickSteps ==> t[s + 1] - t[s] == (d.hi - d.lo) / TickSteps as real
  {
    seq(TickSteps + 1, s requires 0 <= s <= TickSteps => d.lo + (s as real / TickSteps as real) * (d.hi - d.lo))
  }

  // ---------------------------------------------------------------- precipitation scale

  /** `Math.max(...precip, 1)`: at least 1 and at least every daily amount; it is 1 or
      one of the amounts. */
  function PrecipCeiling(p: seq<real>): (m: real)
    ensures m >= 1.0
    ensures forall i :: 0 <= i < |p| ==> p[i] <= m
    ensures m == 1.0 || m in p
  {
    var all := p + [1.0];
    assert forall i :: 0 <= i < |p| ==> p[i] == all[i];
    var m := Max(all);
    assert all[|p|] == 1.0;
    assert m == 1.0 || m in p by {
      var k :| 0 <= k < |all| && all[k] == m;
      if k < |p| { assert p[k] == m; }
    }
    m
  }

  /** `yP(v)`: the zero-based precipitation axis. */
  function YP(f: Frame, pMax: real, v: real): (y: real)
    requires pMax > 0.0
    ensures v == 0.0 ==> y == Baseline(f)
    ensures v == pMax ==> y == PadT
  {
    assert pMax / pMax == 1.0;
    PadT + ChartH(f) - (v / pMax) * ChartH(f)
  }

  /** Zero precipitation sits on the baseline, the ceiling on the top edge. */
  lemma YPEndpoints(f: Frame, pMax: real)
    requires pMax > 0.0
    ensures YP(f, pMax, 0.0) == Baseline(f)
    ensures YP(f, pMax, pMax) == PadT
  {
    assert pMax / pMax == 1.0;
  }

  /** An amount between zero and the ceiling is drawn inside the plot area. */
  lemma YPWithinPlot(f: Frame, pMax: real, v: real)
    requires pMax > 0.0 && 0.0 <= v <= pMax && ChartH(f) >= 0.0
    ensures PadT <= YP(f, pMax, v) <= Baseline(f)
  {
    var t := v / pMax;
    RatioInUnit(v, pMax);
    assert 0.0 <= t * ChartH(f) <= ChartH(f);
  }

  // ---------------------------------------------------------------- drawing commands

  datatype Point = Point(x: real, y: real)
  /** A vertical dashed gridline from `top` down to `bottom`. */
  datatype GridLine = GridLine(x: real, top: real, bottom: real)
  /** `fillRect(left, top, width, height)`. */
  datatype Rect = Rect(left: real, top: real, width: real, height: real)
  /** A temperature-axis label showing `value` (rounded for display) at `at`. */
  datatype TickLabel = TickLabel(value: real, at: Point)
  datatype LegendEntry = LegendEntry(text: string, at: Point)

  /** Everything one call of `drawChart` draws, in drawing order: gridlines, then
      precipitation bars, then the low series (polyline through the points, then a
      marker on each), then the high series, then the weekday labels, the temperature
      tick labels and the legend. */
  datatype Chart = Chart(
    grid: seq<GridLine>,
    bars: seq<Rect>,
    low: seq<Point>,
    high: seq<Point>,
    dayLabels: seq<Point>,
    ticks: seq<TickLabel>,
    legend: seq<LegendEntry>)

  /** The daily block of the forecast: dates, highs and lows in °C, precipitation sums. */
  datatype Daily = Daily(dates: seq<string>, maxC: seq<real>, minC: seq<real>, precip: seq<real>)

  /** One gridline per label, spanning the plot height at that day's x. */
  function GridLines(f: Frame, n: nat): (g: seq<GridLine>)
    ensures |g| == n
    ensures forall i :: 0 <= i < n ==> g[i].x == X(f, n, i)
    ensures forall i :: 0 <= i < n ==> g[i].top == PadT && g[i].bottom == Baseline(f)
  {
    seq(n, i requires 0 <= i < n => GridLine(X(f, n, i), PadT, Baseline(f)))
  }

  /** The bar of day `i` with amount `v`: centred on x(i), `chartW / (n * 1.6)` wide,
      from the amount's height down to the baseline. */
  function Bar(f: Frame, n: nat, pMax: real, i: nat, v: real): (b: Rect)
    requires n > 0 && pMax > 0.0
    ensures b.left + b.width / 2.0 == X(f, n, i)
    ensures b.top + b.height == Baseline(f)
    ensures b.height == (v / pMax) * ChartH(f)
    ensures b.width == ChartW(f) / (n as real * 1.6)
  {
    var bw := ChartW(f) / (n as real * 1.6);
    Rect(X(f, n, i) - bw / 2.0, YP(f, pMax, v), bw, PadT + ChartH(f) - YP(f, pMax, v))
  }

  /** One bar per precipitation entry. With no labels the bar width is not finite and
      the canvas ignores every `fillRect`, so nothing is drawn. */
  function Bars(f: Frame, n: nat, precip: seq<real>): (b: seq<Rect>)
    ensures |b| == (if n == 0 then 0 else |precip|)
    ensures forall i :: 0 <= i < |b| ==> b[i].top + b[i].height == Baseline(f)
    ensures forall i :: 0 <= i < |b| ==> b[i].left + b[i].width / 2.0 == X(f, n, i)
    ensures n > 0 && ChartH(f) >= 0.0 ==> forall i :: 0 <= i < |precip| && precip[i] >= 0.0 ==>
      PadT <= b[i].top <= Baseline(f)
    ensures n > 0 ==> forall i :: 0 <= i < |precip| ==> b[i] == Bar(f, n, PrecipCeiling(precip), i, precip[i])
  {
    if n == 0 then []
    else
      var pMax := PrecipCeiling(precip);
      var b := seq(|precip|, i requires 0 <= i < |precip| => Bar(f, n, pMax, i, precip[i]));
      assert forall i :: 0 <= i < |precip| && precip[i] >= 0.0 && ChartH(f) >= 0.0 ==>
        PadT <= b[i].top <= Baseline(f) by {
        forall i | 0 <= i < |precip| && precip[i] >= 0.0 && ChartH(f) >= 0.0
          ensures PadT <= b[i].top <= Baseline(f)
        {
          YPWithinPlot(f, pMax, precip[i]);
        }
      }
      b
  }

  /** The points of one temperature series: day `i` at (x(i), yT(vals[i])). */
  function SeriesPoints(f: Frame, n: nat, d: Domain, vals: seq<real>): (p: seq<Point>)
    requires d.lo < d.hi
    requires forall i :: 0 <= i < |vals| ==> d.lo <= vals[i] <= d.hi
    ensures |p| == |vals|
    ensures forall i :: 0 <= i < |vals| ==> p[i].x == X(f, n, i)
    ensures forall i :: 0 <= i < |vals| ==> p[i].y == YT(f, d, vals[i])
    ensures ChartH(f) >= 0.0 ==> forall i :: 0 <= i < |vals| ==> PadT <= p[i].y <= Baseline(f)
  {
    var p := seq(|vals|, i requires 0 <= i < |vals| => Point(X(f, n, i), YT(f, d, vals[i])));
    assert ChartH(f) >= 0.0 ==> forall i :: 0 <= i < |vals| ==> PadT <= p[i].y <= Baseline(f) by {
      if ChartH(f) >= 0.0 {
        forall i | 0 <= i < |vals| ensures PadT <= p[i].y <= Baseline(f) {
          YTWithinPlot(f, d, vals[i]);
        }
      }
    }
    p
  }

  /** The five temperature labels, right-aligned left of the plot at their own height. */
  function TickLabels(f: Frame, d: Domain): (t: seq<TickLabel>)
    requires d.lo < d.hi
    ensures |t| == TickSteps + 1
    ensures t[0].value == d.lo && t[TickSteps].value == d.hi
    ensures forall s :: 0 <= s < TickSteps ==> t[s + 1].value - t[s].value == (d.hi - d.lo) / TickSteps as real
    ensures forall s :: 0 <= s <= TickSteps ==> t[s].at == Point(PadL - 8.0, YT(f, d, t[s].value) + 4.0)
  {
    var vs := Ticks(d);
    seq(TickSteps + 1, s requires 0 <= s <= TickSteps => TickLabel(vs[s], Point(PadL - 8.0, YT(f, d, vs[s]) + 4.0)))
  }

  /** The legend: "High", "Low" and "Precip" along the top of the plot. */
  function Legend(): (l: seq<LegendEntry>)
    ensures |l| == 3
    ensures l[0].text == "High" && l[1].text == "Low" && l[2].text == "Precip"
    ensures forall k :: 0 <= k < 3 ==> l[k].at.y == PadT + 14.0
    ensures l[0].at.x == PadL + 8.0 && l[1].at.x == PadL + 60.0 && l[2].at.x == PadL + 108.0
  {
    [ LegendEntry("High", Point(PadL + 8.0, PadT + 14.0)),
      LegendEntry("Low", Point(PadL + 60.0, PadT + 14.0)),
      LegendEntry("Precip", Point(PadL + 108.0, PadT + 14.0)) ]
  }

  /** The temperature part of the chart: both series and the tick labels. */
  datatype TempLayer = TempLayer(low: seq<Point>, high: seq<Point>, ticks: seq<TickLabel>)

  /** Both series converted to `u` and placed on one shared temperature scale; with no
      temperatures at all `Math.min()` is Infinity, every tick label lands at a
      non-finite position that the canvas ignores, and nothing is drawn. */
  function Temperatures(f: Frame, n: nat, maxC: seq<real>, minC: seq<real>, u: Unit): (t: TempLayer)
    ensures |t.low| == |minC| && |t.high| == |maxC|
    ensures |t.ticks| == (if |maxC| + |minC| == 0 then 0 else TickSteps + 1)
    ensures forall i :: 0 <= i < |minC| ==> t.low[i].x == X(f, n, i)
    ensures forall i :: 0 <= i < |maxC| ==> t.high[i].x == X(f, n, i)
    ensures ChartH(f) >= 0.0 ==>
      (forall i :: 0 <= i < |minC| ==> PadT <= t.low[i].y <= Baseline(f))
      && (forall i :: 0 <= i < |maxC| ==> PadT <= t.high[i].y <= Baseline(f))
    ensures |maxC| + |minC| > 0 ==>
      t.ticks[0].value == ToDisplay(Min(maxC + minC), u) - TempPad
      && t.ticks[TickSteps].value == ToDisplay(Max(maxC + minC), u) + TempPad
    ensures |maxC| + |minC| > 0 ==> t.ticks == TickLabels(f, TempDomain(ConvertAll(maxC, u) + ConvertAll(minC, u)))
    // Every reading of either series is drawn at the height of its converted value.
    ensures |maxC| + |minC| > 0 ==>
      var d := TempDomain(ConvertAll(maxC, u) + ConvertAll(minC, u));
      && d.lo < d.hi
      && (forall i :: 0 <= i < |maxC| ==> t.high[i].y == YT(f, d, ToDisplay(maxC[i], u)))
      && (forall i :: 0 <= i < |minC| ==> t.low[i].y == YT(f, d, ToDisplay(minC[i], u)))
  {
    var tMax := ConvertAll(maxC, u);
    var tMin := ConvertAll(minC, u);
    var tVals := tMax + tMin;
    if |tVals| == 0 then TempLayer([], [], [])
    else
      var d := TempDomain(tVals);
      DomainCoversBoth(tMax, tMin);
      ConvertedDomain(maxC, minC, u);
      TempLayer(SeriesPoints(f, n, d, tMin), SeriesPoints(f, n, d, tMax), TickLabels(f, d))
  }

  /** The shared domain holds every high and every low. */
  lemma DomainCoversBoth(tMax: seq<real>, tMin: seq<real>)
    requires |tMax| + |tMin| > 0
    ensures var d := TempDomain(tMax + tMin);
      && d.lo < d.hi
      && (forall i :: 0 <= i < |tMax| ==> d.lo <= tMax[i] <= d.hi)
      && (forall i :: 0 <= i < |tMin| ==> d.lo <= tMin[i] <= d.hi)
  {
    var tVals := tMax + tMin;
    assert forall i :: 0 <= i < |tMax| ==> tMax[i] == tVals[i];
    assert forall i :: 0 <= i < |tMin| ==> tMin[i] == tVals[|tMax| + i];
  }

  /** The temperature domain of the converted readings is the Celsius domain's
      extremes converted, then padded. */
  lemma ConvertedDomain(maxC: seq<real>, minC: seq<real>, u: Unit)
    requires |maxC| + |minC| > 0
    ensures TempDomain(ConvertAll(maxC, u) + ConvertAll(minC, u))
      == Domain(ToDisplay(Min(maxC + minC), u) - TempPad, ToDisplay(Max(maxC + minC), u) + TempPad)
  {
    assert ConvertAll(maxC, u) + ConvertAll(minC, u) == ConvertAll(maxC + minC, u);
    ConvertMin(maxC + minC, u);
    ConvertMax(maxC + minC, u);
  }

  /** The weekday labels, one per date, centred under each day. */
  function DayLabels(f: Frame, n: nat): (l: seq<Point>)
    ensures |l| == n
    ensures forall i :: 0 <= i < n ==> l[i] == Point(X(f, n, i), f.height - 10.0)
  {
    seq(n, i requires 0 <= i < n => Point(X(f, n, i), f.height - 10.0))
  }

  /** `drawChart(w)` for the daily block `w` in unit `u` on frame `f`: one gridline and
      one weekday label per date, one bar per precipitation entry, one point per high
      and per low, five tick labels when there is any temperature, three legend entries. */
  function Render(f: Frame, w: Daily, u: Unit): (c: Chart)
    ensures |c.grid| == |w.dates| && |c.dayLabels| == |w.dates|
    ensures |c.bars| == (if |w.dates| == 0 then 0 else |w.precip|)
    ensures |c.low| == |w.minC| && |c.high| == |w.maxC|
    ensures |c.ticks| == (if |w.maxC| + |w.minC| == 0 then 0 else TickSteps + 1)
    ensures |c.legend| == 3
    ensures c.bars == Bars(f, |w.dates|, w.precip)
    ensures var t := Temperatures(f, |w.dates|, w.maxC, w.minC, u); c.low == t.low && c.high == t.high && c.ticks == t.ticks
  {
    var n := |w.dates|;
    var t := Temperatures(f, n, w.maxC, w.minC, u);
    Chart(GridLines(f, n), Bars(f, n, w.precip), t.low, t.high, DayLabels(f, n), t.ticks, Legend())
  }

  /** Gridlines, bars, points and weekday labels of day `i` all share x(i). */
  lemma RenderAlignsDays(f: Frame, w: Daily, u: Unit)
    ensures var c := Render(f, w, u); var n := |w.dates|;
      && (forall i :: 0 <= i < n ==> c.grid[i].x == X(f, n, i) == c.dayLabels[i].x)
      && (forall i :: 0 <= i < |c.bars| ==> c.bars[i].left + c.bars[i].width / 2.0 == X(f, n, i))
      && (forall i :: 0 <= i < |w.minC| ==> c.low[i].x == X(f, n, i))
      && (forall i :: 0 <= i < |w.maxC| ==> c.high[i].x == X(f, n, i))
  {
    var n := |w.dates|;
    var t := Temperatures(f, n, w.maxC, w.minC, u);
    assert Render(f, w, u) == Chart(GridLines(f, n), Bars(f, n, w.precip), t.low, t.high, DayLabels(f, n), t.ticks, Legend());
  }

  /** On a plot of non-negative height every temperature point lies inside the plot
      area and every bar stands on the baseline. */
  lemma RenderInsidePlot(f: Frame, w: Daily, u: Unit)
    requires ChartH(f) >= 0.0
    ensures var c := Render(f, w, u);
      && (forall i :: 0 <= i < |w.minC| ==> PadT <= c.low[i].y <= Baseline(f))
      && (forall i :: 0 <= i < |w.maxC| ==> PadT <= c.high[i].y <= Baseline(f))
      && (forall i :: 0 <= i < |c.bars| ==> c.bars[i].top + c.bars[i].height == Baseline(f))
  {
    var t := Temperatures(f, |w.dates|, w.maxC, w.minC, u);
    assert forall i :: 0 <= i < |w.minC| ==> PadT <= t.low[i].y <= Baseline(f);
    assert forall i :: 0 <= i < |w.maxC| ==> PadT <= t.high[i].y <= Baseline(f);
  }

  /** The bar of day `i` is the one `Bar` describes: `chartW / (n * 1.6)` wide, centred on
      x(i), reaching from the baseline up to its amount's share of the ceiling. */
  lemma RenderBars(f: Frame, w: Daily, u: Unit, i: nat)
    requires |w.dates| > 0 && i < |w.precip|
    ensures Render(f, w, u).bars[i] == Bar(f, |w.dates|, PrecipCeiling(w.precip), i, w.precip[i])
  {
    var n := |w.dates|;
    var pMax := PrecipCeiling(w.precip);
    assert Render(f, w, u).bars[i] == Bar(f, n, pMax, i, w.precip[i]);
  }

  /** The tick labels are those of the domain spanned by the converted Celsius extremes,
      padded by 2: the five values run evenly from its bottom to its top, each placed at
      its own height. */
  lemma RenderTicks(f: Frame, w: Daily, u: Unit)
    requires |w.maxC| + |w.minC| > 0
    ensures Render(f, w, u).ticks == TickLabels(f,
      Domain(ToDisplay(Min(w.maxC + w.minC), u) - TempPad, ToDisplay(Max(w.maxC + w.minC), u) + TempPad))
  {
    ConvertedDomain(w.maxC, w.minC, u);
    var t := Temperatures(f, |w.dates|, w.maxC, w.minC, u);
    assert Render(f, w, u).ticks == t.ticks;
  }

  /** Each plotted temperature is its converted reading placed on the shared domain of
      all converted readings. */
  lemma RenderHeights(f: Frame, w: Daily, u: Unit, i: nat)
    ensures i < |w.maxC| ==> var d := TempDomain(ConvertAll(w.maxC, u) + ConvertAll(w.minC, u));
      d.lo < d.hi && Render(f, w, u).high[i].y == YT(f, d, ToDisplay(w.maxC[i], u))
    ensures i < |w.minC| ==> var d := TempDomain(ConvertAll(w.maxC, u) + ConvertAll(w.minC, u));
      d.lo < d.hi && Render(f, w, u).low[i].y == YT(f, d, ToDisplay(w.minC[i], u))
  {
    if |w.maxC| + |w.minC| == 0 { return; }
    var tMax := ConvertAll(w.maxC, u);
    var tMin := ConvertAll(w.minC, u);
    var d := TempDomain(tMax + tMin);
    DomainCoversBoth(tMax, tMin);
    var n := |w.dates|;
    var t := Temperatures(f, n, w.maxC, w.minC, u);
    assert t.high == SeriesPoints(f, n, d, tMax) && t.low == SeriesPoints(f, n, d, tMin);
    assert Render(f, w, u).high == t.high && Render(f, w, u).low == t.low;
  }

  /** On a day whose high is at least its low, the high point is drawn no lower than
      the low point, in either unit. */
  lemma HighNotBelowLow(f: Frame, w: Daily, u: Unit, i: nat)
    requires i < |w.maxC| && i < |w.minC| && w.minC[i] <= w.maxC[i] && ChartH(f) >= 0.0
    ensures Render(f, w, u).high[i].y <= Render(f, w, u).low[i].y
  {
    RenderHeights(f, w, u, i);
    var d := TempDomain(ConvertAll(w.maxC, u) + ConvertAll(w.minC, u));
    YTNonIncreasing(f, d, ToDisplay(w.minC[i], u), ToDisplay(w.maxC[i], u));
  }

  lemma YTNonIncreasing(f: Frame, d: Domain, v: real, w: real)
    requires d.lo < d.hi && ChartH(f) >= 0.0 && v <= w
    ensures YT(f, d, w) <= YT(f, d, v)
  {
    if v < w && ChartH(f) > 0.0 {
      YTStrictlyDecreasing(f, d, v, w);
    } else if ChartH(f) == 0.0 {
      assert YT(f, d, w) == PadT == YT(f, d, v);
    }
  }
}

=== FILE: country.dfy ===
/** Place resolution in `doSearch`: choosing the best candidate returned by the
    country-search service and extracting its coordinates. */
module Country {
  import opened Optional
  import opened Text

  /** A latitude/longitude pair, the only input of the weather fetch. */
  datatype Coords = Coords(lat: real, lon: real)

  /** The fields of a candidate record the script reads (`name.common`, `capital`,
      `population`, `region`, `flags.svg`, `latlng`); every one but the name may be missing. */
  datatype Place = Place(
    commonName: string,
    capital: Option<seq<string>>,
    population: Option<int>,
    region: Option<string>,
    flagSvg: Option<string>,
    latlng: Option<seq<real>>)

  /** What the country-search request produced: a rejected request or a body that is
      not JSON, a JSON body that is not an array (the service's not-found object), or
      the candidate array. */
  datatype Lookup = RequestFailed | NotAList | Candidates(places: seq<Place>)

  datatype SearchError = NotFound

  /** The candidate's common name equals the query ignoring case. */
  predicate Matches(q: string, p: Place) {
    SameIgnoringCase(p.commonName, q)
  }

  /** Candidate `k` matches and none before it does. */
  predicate IsFirstMatch(q: string, data: seq<Place>, k: int) {
    0 <= k < |data| && Matches(q, data[k]) && forall j :: 0 <= j < k ==> !Matches(q, data[j])
  }

  predicate NoMatch(q: string, data: seq<Place>) {
    forall j :: 0 <= j < |data| ==> !Matches(q, data[j])
  }

  /** `data.find(c => …) || data[0]`, then `if (!best) throw`: the first exact match,
      else the first candidate, else an error. */
  function SelectBest(q: string, data: seq<Place>): (r: Result<Place, SearchError>)
    ensures |data| == 0 <==> r.Err?
    ensures forall k :: IsFirstMatch(q, data, k) ==> r == Ok(data[k])
    ensures 0 < |data| && NoMatch(q, data) ==> r == Ok(data[0])
  {
    match FindMatch(q, data, 0)
    case Some(k) => Ok(data[k])
    case None => if |data| == 0 then Err(NotFound) else Ok(data[0])
  }

  /** The index of the first matching candidate at or after `i`, if any. */
  function FindMatch(q: string, data: seq<Place>, i: nat): (r: Option<nat>)
    requires i <= |data|
    ensures r.Some? ==> (i <= r.value < |data| && Matches(q, data[r.value])
      && forall j :: i <= j < r.value ==> !Matches(q, data[j]))
    ensures r.None? ==> forall j :: i <= j < |data| ==> !Matches(q, data[j])
    decreases |data| - i
  {
    if i == |data| then None
    else if Matches(q, data[i]) then Some(i)
    else FindMatch(q, data, i + 1)
  }

  /** JavaScript truthiness of a possibly missing number: present and non-zero. */
  predicate Truthy(v: Option<real>) {
    v.Some? && v.value != 0.0
  }

  /** `const [lat, lon] = best.latlng || []` then `lat && lon ? {lat, lon} : null`:
      coordinates exist exactly when the pair has two entries, neither of them zero. */
  function ExtractCoords(latlng: Option<seq<real>>): (r: Option<Coords>)
    ensures r.Some? <==> (latlng.Some? && |latlng.value| >= 2
      && latlng.value[0] != 0.0 && latlng.value[1] != 0.0)
    ensures r.Some? ==> r.value.lat == latlng.value[0] && r.value.lon == latlng.value[1]
  {
    var arr := latlng.GetOr([]);
    var lat := if |arr| > 0 then Some(arr[0]) else None;
    var lon := if |arr| > 1 then Some(arr[1]) else None;
    if Truthy(lat) && Truthy(lon) then Some(Coords(lat.value, lon.value)) else None
  }

  /** `lat ? `${lat.toFixed(2)} / ${lon.toFixed(2)}` : '—'`: with a truthy latitude and no
      longitude the second `toFixed` is called on `undefined` and throws. That happens
      exactly for a one-entry pair with a non-zero entry, which never has coordinates. */
  predicate LatLonLabelThrows(latlng: Option<seq<real>>)
    ensures LatLonLabelThrows(latlng) ==> ExtractCoords(latlng).None?
  {
    var arr := latlng.GetOr([]);
    |arr| == 1 && arr[0] != 0.0
  }

  /** Coordinates survive extraction from a `[lat, lon]` pair exactly when neither is
      zero: a place on the equator or the prime meridian has "no coordinates". */
  lemma ExtractCoordsRoundTrip(c: Coords)
    ensures ExtractCoords(Some([c.lat, c.lon])) == (if c.lat != 0.0 && c.lon != 0.0 then Some(c) else None)
  {
  }

  function NamedOnly(name: string): Place {
    Place(name, None, None, None, None, None)
  }

  /** "France" picks the exact match even when another candidate comes first. */
  lemma SelectBestPrefersExactMatch()
    ensures SelectBest("France", [NamedOnly("French Republic"), NamedOnly("France")])
      == Ok(NamedOnly("France"))
  {
    var data := [NamedOnly("French Republic"), NamedOnly("France")];
    assert |ToLower("French Republic")| != |ToLower("France")|;
    assert !Matches("France", data[0]);
    assert Matches("France", data[1]);
  }

  /** With no candidates the search fails. */
  lemma SelectBestEmptyFails(q: string)
    ensures SelectBest(q, []) == Err(NotFound)
  {
  }
}

=== FILE: optional.dfy ===
/** Absent-or-present values and success-or-failure values, used wherever the
    browser script relies on `undefined`, `null` or a thrown exception. */
module Optional {

  /** A value that may be missing (`undefined` / `null` in the script). */
  datatype Option<+T> = None | Some(value: T) {

    /** The value if present, otherwise `default` (the script's `x || d` on non-falsy values). */
    function GetOr(default: T): T {
      match this
      case Some(v) => v
      case None => default
    }
  }

  /** The outcome of a step that may throw. */
  datatype Result<+T, +E> = Ok(value: T) | Err(error: E)
}

=== FILE: recent.dfy ===
/** The recent-searches list: `readRecent` and `pushRecent` of script.js, with the
    browser's key-value store reduced to the value it holds (absent, or the list). */
module Recent {
  import opened Optional
  import opened Text

  /** The list is capped at this many names. */
  const Capacity: nat := 5

  /** `readRecent()`: the stored list, or the empty list when nothing is stored. */
  function ReadRecent(stored: Option<seq<string>>): (r: seq<string>)
    ensures stored.None? ==> r == []
    ensures stored.Some? ==> r == stored.value
  {
    stored.GetOr([])
  }

  /** `a` is an initial segment of `b`. */
  predicate IsPrefix(a: seq<string>, b: seq<string>) {
    |a| <= |b| && a == b[..|a|]
  }

  /** No two entries are equal ignoring case. */
  predicate DistinctIgnoringCase(s: seq<string>)
  {
    forall i, j :: 0 <= i < j < |s| ==> !SameIgnoringCase(s[i], s[j])
  }

  /** `list.filter(x => x.toLowerCase() !== name.toLowerCase())`: exactly the entries
      that differ from `name` ignoring case, in their original order. */
  function Without(list: seq<string>, name: string): (r: seq<string>)
    ensures forall i :: 0 <= i < |r| ==> !SameIgnoringCase(r[i], name)
    ensures forall x :: x in r ==> x in list
    ensures forall x :: x in list && !SameIgnoringCase(x, name) ==> x in r
    ensures |r| <= |list|
  {
    if list == [] then []
    else
      var rest := Without(list[1..], name);
      assert list == [list[0]] + list[1..];
      if SameIgnoringCase(list[0], name) then rest else [list[0]] + rest
  }

  /** Filtering distributes over concatenation, so entries keep their relative order;
      together with `WithoutSingle` this pins the filter down completely. */
  lemma {:induction false} WithoutConcat(a: seq<string>, b: seq<string>, name: string)
    ensures Without(a + b, name) == Without(a, name) + Without(b, name)
  {
    if a == [] {
      assert a + b == b;
    } else {
      assert (a + b)[1..] == a[1..] + b;
      WithoutConcat(a[1..], b, name);
    }
  }

  /** A single entry is dropped exactly when it equals the name ignoring case. */
  lemma WithoutSingle(x: string, name: string)
    ensures Without([x], name) == (if SameIgnoringCase(x, name) then [] else [x])
  {
  }

  /** `pushRecent(name)` on the stored list `stored`: drop every entry equal to
      `name` ignoring case, put `name.trim()` in front, keep the first five. */
  function PushRecent(stored: seq<string>, name: string): (r: seq<string>)
    ensures 1 <= |r| <= Capacity
    ensures r[0] == Trim(name)
    ensures forall i :: 1 <= i < |r| ==> !SameIgnoringCase(r[i], name)
    ensures IsPrefix(r[1..], Without(stored, name))
    ensures |r| == if |Without(stored, name)| < Capacity then |Without(stored, name)| + 1 else Capacity
    ensures |r| < Capacity ==>
      forall x :: x in stored && !SameIgnoringCase(x, name) ==> x in r
  {
    var kept := Without(stored, name);
    var r := [Trim(name)] + (if |kept| < Capacity then kept else kept[..Capacity - 1]);
    assert r[1..] == kept[..|r| - 1];
    r
  }

  /** Filtering a list none of whose entries match changes nothing. */
  lemma {:induction false} WithoutNoMatch(list: seq<string>, name: string)
    requires forall i :: 0 <= i < |list| ==> !SameIgnoringCase(list[i], name)
    ensures Without(list, name) == list
  {
    if list != [] {
      WithoutNoMatch(list[1..], name);
      assert list == [list[0]] + list[1..];
    }
  }

  /** Pushing an already trimmed name twice is the same as pushing it once. */
  lemma PushRecentIdempotent(stored: seq<string>, name: string)
    requires Trim(name) == name
    ensures PushRecent(PushRecent(stored, name), name) == PushRecent(stored, name)
  {
    var r := PushRecent(stored, name);
    assert r == [r[0]] + r[1..];
    WithoutNoMatch(r[1..], name);
    assert Without(r, name) == r[1..];
  }

  /** Filtering keeps a case-insensitively duplicate-free list duplicate-free. */
  lemma {:induction false} WithoutKeepsDistinct(list: seq<string>, name: string)
    requires DistinctIgnoringCase(list)
    ensures DistinctIgnoringCase(Without(list, name))
  {
    if list != [] {
      var rest := Without(list[1..], name);
      assert DistinctIgnoringCase(list[1..]) by {
        forall i, j | 0 <= i < j < |list| - 1
          ensures !SameIgnoringCase(list[1..][i], list[1..][j])
        {
          assert list[1..][i] == list[i + 1] && list[1..][j] == list[j + 1];
        }
      }
      WithoutKeepsDistinct(list[1..], name);
      if !SameIgnoringCase(list[0], name) {
        var r := [list[0]] + rest;
        forall i, j | 0 <= i < j < |r| ensures !SameIgnoringCase(r[i], r[j]) {
          if i == 0 {
            assert r[j] in list[1..];
            var k :| 0 <= k < |list[1..]| && list[1..][k] == r[j];
            assert list[k + 1] == r[j];
          } else {
            assert r[i] == rest[i - 1] && r[j] == rest[j - 1];
          }
        }
      }
    }
  }

  /** The list stays free of case-insensitive duplicates when trimmed names are pushed. */
  lemma PushRecentKeepsDistinct(stored: seq<string>, name: string)
    requires DistinctIgnoringCase(stored)
    requires Trim(name) == name
    ensures DistinctIgnoringCase(PushRecent(stored, name))
  {
    var kept := Without(stored, name);
    WithoutKeepsDistinct(stored, name);
    var r := PushRecent(stored, name);
    forall i, j | 0 <= i < j < |r| ensures !SameIgnoringCase(r[i], r[j]) {
      if i > 0 {
        assert r[i] == kept[i - 1] && r[j] == kept[j - 1];
      }
    }
  }

  /** Pushing "india", then "India", then "Japan" leaves ["Japan", "India"]. */
  lemma PushRecentExample()
    ensures PushRecent(PushRecent(PushRecent([], "india"), "India"), "Japan") == ["Japan", "India"]
  {
    TrimKeeps("india");
    TrimKeeps("India");
    TrimKeeps("Japan");
    assert PushRecent([], "india") == ["india"];
    assert ToLower("India") == "india" == ToLower("india");
    assert Without(["india"], "India") == [];
    assert PushRecent(["india"], "India") == ["India"];
    assert ToLower("India")[0] != ToLower("Japan")[0];
    assert Without(["India"], "Japan") == ["India"];
  }

  /** A name with letters at both ends is stored unchanged. */
  lemma TrimKeeps(name: string)
    requires |name| > 0 && !IsWhite(name[0]) && !IsWhite(name[|name| - 1])
    ensures Trim(name) == name
  {
    assert SkipWhite(name, 0) == 0;
    assert SkipWhiteBack(name, 0, |name|) == |name|;
  }

  /** The filter compares against the untrimmed name while the trimmed name is stored:
      pushing "India " onto ["India"] leaves the entry "India" twice. */
  lemma PushRecentUntrimmedDuplicate()
    ensures PushRecent(["India"], "India ") == ["India", "India"]
  {
    var name := "India ";
    assert SkipWhite(name, 0) == 0;
    assert SkipWhiteBack(name, 0, 6) == SkipWhiteBack(name, 0, 5) == 5;
    assert Trim(name) == "India";
    assert |ToLower("India")| != |ToLower(name)|;
    assert Without(["India"], name) == ["India"];
  }
}

=== FILE: series.dfy ===
/** Extremes of numeric series: the script's `Math.min(...xs)` and `Math.max(...xs)`
    on non-empty arrays. */
module Series {

  /** The smallest element: it occurs in `s` and no element is smaller. */
  function Min(s: seq<real>): (m: real)
    requires |s| > 0
    ensures m in s
    ensures forall i :: 0 <= i < |s| ==> m <= s[i]
  {
    if |s| == 1 then s[0]
    else
      var rest := Min(s[1..]);
      assert forall i :: 1 <= i < |s| ==> s[i] == s[1..][i - 1];
      if s[0] <= rest then s[0] else rest
  }

  /** The largest element: it occurs in `s` and no element is larger. */
  function Max(s: seq<real>): (m: real)
    requires |s| > 0
    ensures m in s
    ensures forall i :: 0 <= i < |s| ==> s[i] <= m
  {
    if |s| == 1 then s[0]
    else
      var rest := Max(s[1..]);
      assert forall i :: 1 <= i < |s| ==> s[i] == s[1..][i - 1];
      if rest <= s[0] then s[0] else rest
  }

  /** The extremes are determined by the elements alone: any value that occurs in the
      series and bounds it from below is its minimum. */
  lemma MinUnique(s: seq<real>, m: real)
    requires m in s && forall i :: 0 <= i < |s| ==> m <= s[i]
    ensures Min(s) == m
  {
  }

  lemma MaxUnique(s: seq<real>, m: real)
    requires m in s && forall i :: 0 <= i < |s| ==> s[i] <= m
    ensures Max(s) == m
  {
  }
}

=== FILE: status.dfy ===
/** `setStatus`: the text and colour shown for a status code. */
module Status {

  datatype Colour = Danger | Accent | Muted

  /** The codes that have their own text. */
  predicate IsKnownCode(code: string) {
    code == "ok" || code == "loading" || code == "error" || code == "—"
  }

  /** `map[type] || type`: the four known codes have fixed texts, any other code the
      script passes is shown verbatim. */
  function StatusText(code: string): (text: string)
    ensures !IsKnownCode(code) ==> text == code
    ensures code == "ok" ==> text == "✓"
    ensures code == "loading" ==> text == "Loading…"
    ensures code == "error" ==> text == "Error"
    ensures code == "—" ==> text == "—"
  {
    match code
    case "ok" => "✓"
    case "loading" => "Loading…"
    case "error" => "Error"
    case "—" => "—"
    case _ => code
  }

  /** The colour: danger for `error`, accent for `ok`, muted for everything else. */
  function StatusColour(code: string): (c: Colour)
    ensures c == Danger <==> code == "error"
    ensures c == Accent <==> code == "ok"
  {
    if code == "error" then Danger else if code == "ok" then Accent else Muted
  }
}

=== FILE: text.dfy ===
/** The two string built-ins the script relies on: `String.prototype.trim` and
    `String.prototype.toLowerCase` (the latter restricted to ASCII letters). */
module Text {

  /** A code point `String.prototype.trim` removes: the ECMAScript WhiteSpace
      and LineTerminator characters. */
  predicate IsWhite(c: char) {
    || c == '\t' || c == '\n' || c == '\U{000B}' || c == '\U{000C}' || c == '\r'
    || c == ' ' || c == '\U{00A0}' || c == '\U{1680}'
    || ('\U{2000}' <= c <= '\U{200A}')
    || c == '\U{2028}' || c == '\U{2029}' || c == '\U{202F}' || c == '\U{205F}'
    || c == '\U{3000}' || c == '\U{FEFF}'
  }

  predicate AllWhite(s: string) {
    forall i :: 0 <= i < |s| ==> IsWhite(s[i])
  }

  /** The index of the first non-white character of `s` at or after `i`, or `|s|`. */
  function SkipWhite(s: string, i: nat): (n: nat)
    requires i <= |s|
    ensures i <= n <= |s|
    ensures forall k :: i <= k < n ==> IsWhite(s[k])
    ensures n < |s| ==> !IsWhite(s[n])
    decreases |s| - i
  {
    if i == |s| || !IsWhite(s[i]) then i else SkipWhite(s, i + 1)
  }

  /** The index just after the last non-white character of `s[lo..j]`, or `lo`. */
  function SkipWhiteBack(s: string, lo: nat, j: nat): (e: nat)
    requires lo <= j <= |s|
    ensures lo <= e <= j
    ensures forall k :: e <= k < j ==> IsWhite(s[k])
    ensures lo < e ==> !IsWhite(s[e - 1])
    decreases j
  {
    if j == lo || !IsWhite(s[j - 1]) then j else SkipWhiteBack(s, lo, j - 1)
  }

  /** Neither the first nor the last character is white space. */
  predicate IsTrimmed(s: string) {
    s == [] || (!IsWhite(s[0]) && !IsWhite(s[|s| - 1]))
  }

  /** `s.trim()`: the infix of `s` left after cutting the white space at both ends. */
  function Trim(s: string): (r: string)
    ensures IsTrimmed(r)
    ensures r == [] <==> AllWhite(s)
  {
    var a := SkipWhite(s, 0);
    var b := SkipWhiteBack(s, a, |s|);
    assert b == a ==> AllWhite(s);
    s[a..b]
  }

  /** Only white space is cut: what is left is the run of `s` between the leading
      and the trailing white space. */
  lemma TrimIsInfix(s: string)
    ensures var a := SkipWhite(s, 0);
      a + |Trim(s)| <= |s| && Trim(s) == s[a..a + |Trim(s)|]
      && AllWhite(s[..a]) && AllWhite(s[a + |Trim(s)|..])
  {
    var a := SkipWhite(s, 0);
    var b := SkipWhiteBack(s, a, |s|);
    assert Trim(s) == s[a..b];
    forall k | 0 <= k < |s[..a]| ensures IsWhite(s[..a][k]) { assert s[..a][k] == s[k]; }
    forall k | 0 <= k < |s[b..]| ensures IsWhite(s[b..][k]) { assert s[b..][k] == s[b + k]; }
  }

  /** Trimming an already trimmed string changes nothing. */
  lemma TrimIdempotent(s: string)
    ensures Trim(Trim(s)) == Trim(s)
  {
    var r := Trim(s);
    if r != [] {
      assert SkipWhite(r, 0) == 0;
      assert SkipWhiteBack(r, 0, |r|) == |r|;
    }
  }

  function LowerChar(c: char): (r: char)
  {
    if 'A' <= c <= 'Z' then (c as int + 32) as char else c
  }

  /** `s.toLowerCase()` on ASCII: every upper-case letter replaced by its lower-case
      partner, every other character kept, position by position. */
  function ToLower(s: string): (r: string)
    ensures |r| == |s|
    ensures forall i :: 0 <= i < |s| ==> !('A' <= r[i] <= 'Z')
    ensures forall i :: 0 <= i < |s| && !('A' <= s[i] <= 'Z') ==> r[i] == s[i]
    ensures forall i :: 0 <= i < |s| && 'A' <= s[i] <= 'Z' ==> r[i] as int == s[i] as int + 32
  {
    seq(|s|, i requires 0 <= i < |s| => LowerChar(s[i]))
  }

  /** The script's case-insensitive comparison `a.toLowerCase() === b.toLowerCase()`. */
  predicate SameIgnoringCase(a: string, b: string) {
    ToLower(a) == ToLower(b)
  }
}

=== FILE: units.dfy ===
/** Temperature units: the persisted preference and the °C → display-unit conversion
    applied to the current temperature and to the daily highs and lows. */
module Units {
  import opened Optional
  import opened Series

  datatype Unit = Celsius | Fahrenheit

  /** The code written to the key-value store under `unit` when a unit button is pressed. */
  function UnitCode(u: Unit): (code: string)
    ensures code == "C" <==> u == Celsius
    ensures code == "F" <==> u == Fahrenheit
  {
    match u
    case Celsius => "C"
    case Fahrenheit => "F"
  }

  /** The unit in force after start-up: the stored code, or `'C'` when nothing (or the
      empty string) is stored; every conversion tests `unit === 'C'`, so any other
      stored code behaves as Fahrenheit. */
  function LoadUnit(stored: Option<string>): (u: Unit)
    ensures u == Celsius <==> stored == None || stored == Some("") || stored == Some("C")
  {
    match stored
    case None => Celsius
    case Some(code) => if code == "" || code == "C" then Celsius else Fahrenheit
  }

  /** A stored preference is read back as the unit that was stored. */
  lemma LoadUnitRoundTrip(u: Unit)
    ensures LoadUnit(Some(UnitCode(u))) == u
  {
  }

  /** `unit === 'C' ? c : c*9/5+32`: the identity in Celsius, and in Fahrenheit the value
      whose inverse conversion gives back `c`. */
  function ToDisplay(c: real, u: Unit): (r: real)
    ensures u == Celsius ==> r == c
    ensures u == Fahrenheit ==> (r - 32.0) * 5.0 / 9.0 == c
  {
    if u == Celsius then c else c * 9.0 / 5.0 + 32.0
  }

  /** Conversion keeps the order of temperatures. */
  lemma ToDisplayStrictlyIncreasing(c: real, d: real, u: Unit)
    requires c < d
    ensures ToDisplay(c, u) < ToDisplay(d, u)
  {
  }

  /** `series.map(c => …)`: the series converted element by element. */
  function ConvertAll(s: seq<real>, u: Unit): (r: seq<real>)
    ensures |r| == |s|
    ensures forall i :: 0 <= i < |s| ==> r[i] == ToDisplay(s[i], u)
  {
    seq(|s|, i requires 0 <= i < |s| => ToDisplay(s[i], u))
  }

  /** Converting a series converts its minimum: the chart's temperature domain in
      Fahrenheit is the Celsius domain's endpoints converted. */
  lemma ConvertMin(s: seq<real>, u: Unit)
    requires |s| > 0
    ensures Min(ConvertAll(s, u)) == ToDisplay(Min(s), u)
  {
    var r := ConvertAll(s, u);
    var k :| 0 <= k < |s| && s[k] == Min(s);
    assert r[k] == ToDisplay(Min(s), u);
    forall i | 0 <= i < |r| ensures ToDisplay(Min(s), u) <= r[i] {
      if Min(s) < s[i] { ToDisplayStrictlyIncreasing(Min(s), s[i], u); }
    }
    MinUnique(r, ToDisplay(Min(s), u));
  }

  /** Converting a series converts its maximum. */
  lemma ConvertMax(s: seq<real>, u: Unit)
    requires |s| > 0
    ensures Max(ConvertAll(s, u)) == ToDisplay(Max(s), u)
  {
    var r := ConvertAll(s, u);
    var k :| 0 <= k < |s| && s[k] == Max(s);
    assert r[k] == ToDisplay(Max(s), u);
    forall i | 0 <= i < |r| ensures r[i] <= ToDisplay(Max(s), u) {
      if s[i] < Max(s) { ToDisplayStrictlyIncreasing(s[i], Max(s), u); }
    }
    MaxUnique(r, ToDisplay(Max(s), u));
  }
}

=== FILE: weather.dfy ===
/** `fetchWeather`'s reading of the forecast payload: the current temperature, wind and
    rain shown above the chart, and the daily block handed to the chart. Every place
    where the script would throw a TypeError on a missing field is an explicit error. */
module Weather {
  import opened Optional
  import opened Units
  import Chart

  datatype CurrentWeather = CurrentWeather(temperature: Option<real>, windspeed: Option<real>, time: Option<string>)
  datatype Hourly = Hourly(time: Option<seq<string>>, precipitation: Option<seq<Option<real>>>)
  datatype DailyBlock = DailyBlock(
    time: Option<seq<string>>,
    maxC: Option<seq<real>>,
    minC: Option<seq<real>>,
    precipSum: Option<seq<real>>)
  /** The forecast JSON: each block, and each array inside a block, may be missing. */
  datatype Payload = Payload(current: Option<CurrentWeather>, hourly: Option<Hourly>, daily: Option<DailyBlock>)

  /** A property read on `undefined`. */
  datatype TypeError = TypeError

  /** `times.indexOf(now)`: -1 when `now` is missing or absent, otherwise the index of
      its first occurrence. */
  function IndexOf(times: seq<string>, now: Option<string>): (r: int)
    ensures -1 <= r < |times|
    ensures r == -1 <==> (now.None? || now.value !in times)
    ensures r >= 0 ==> times[r] == now.value && forall j :: 0 <= j < r ==> times[j] != now.value
  {
    if now.None? then -1 else Find(times, now.value, 0)
  }

  function Find(times: seq<string>, x: string, i: nat): (r: int)
    requires i <= |times|
    ensures r == -1 || i <= r < |times|
    ensures r == -1 <==> forall j :: i <= j < |times| ==> times[j] != x
    ensures r >= 0 ==> times[r] == x && forall j :: i <= j < r ==> times[j] != x
    decreases |times| - i
  {
    if i == |times| then -1
    else if times[i] == x then i
    else Find(times, x, i + 1)
  }

  /** `hourly.precipitation[idx] || 0`: a missing (or null) amount reads as 0. */
  function AmountAt(p: seq<Option<real>>, i: nat): (v: real)
    ensures i < |p| && p[i].Some? ==> v == p[i].value
    ensures !(i < |p| && p[i].Some?) ==> v == 0.0
  {
    if i < |p| && p[i].Some? then p[i].value else 0.0
  }

  /** The figures shown as "now": temperature in the display unit, wind in km/h, rain in
      mm; `None` is shown as "—". */
  datatype Readings = Readings(temp: Option<real>, wind: Option<real>, rain: Option<real>)

  /** The readings after `fetchWeather` wrote the temperature, wind and rain figures, and
      whether one of those writes threw. A throw at the
      index lookup leaves all three untouched; a throw at the rain amount comes after
      temperature and wind were written. */
  datatype Shown = Shown(readings: Readings, threw: bool)

  function ShowCurrent(prev: Readings, w: Payload, u: Unit): (s: Shown)
    // The index lookup throws exactly when an hourly block without a time array is present.
    ensures (w.hourly.Some? && w.hourly.value.time.None?) ==> s == Shown(prev, true)
    // Otherwise temperature and wind are always written.
    ensures !(w.hourly.Some? && w.hourly.value.time.None?) ==>
      s.readings.temp == CurrentTemp(w, u) && s.readings.wind == CurrentWind(w)
    // No hourly block, or no matching timestamp: rain is shown as absent.
    ensures w.hourly.None? ==> s == Shown(Readings(CurrentTemp(w, u), CurrentWind(w), None), false)
    ensures (w.hourly.Some? && w.hourly.value.time.Some?
      && IndexOf(w.hourly.value.time.value, CurrentTime(w)) == -1) ==>
      s == Shown(Readings(CurrentTemp(w, u), CurrentWind(w), None), false)
    // A matching timestamp shows that hour's amount, or throws after temperature and wind
    // were written when the hourly block has no amounts.
    ensures (w.hourly.Some? && w.hourly.value.time.Some?
      && IndexOf(w.hourly.value.time.value, CurrentTime(w)) >= 0 && w.hourly.value.precipitation.None?) ==>
      s == Shown(Readings(CurrentTemp(w, u), CurrentWind(w), prev.rain), true)
    ensures (w.hourly.Some? && w.hourly.value.time.Some? && CurrentTime(w).Some?
      && CurrentTime(w).value in w.hourly.value.time.value && w.hourly.value.precipitation.Some?) ==>
      !s.threw && s.readings.rain.Some?
  {
    var temp := CurrentTemp(w, u);
    var wind := CurrentWind(w);
    match w.hourly
    case None => Shown(Readings(temp, wind, None), false)
    case Some(h) =>
      match h.time
      case None => Shown(prev, true)
      case Some(times) =>
        var idx := IndexOf(times, CurrentTime(w));
        if idx == -1 then Shown(Readings(temp, wind, None), false)
        else match h.precipitation
          case None => Shown(Readings(temp, wind, prev.rain), true)
          case Some(p) => Shown(Readings(temp, wind, Some(AmountAt(p, idx))), false)
  }

  function CurrentTime(w: Payload): Option<string> {
    if w.current.Some? then w.current.value.time else None
  }

  /** `current_weather?.temperature`, converted to the display unit when present. */
  function CurrentTemp(w: Payload, u: Unit): (t: Option<real>)
    ensures t.Some? <==> w.current.Some? && w.current.value.temperature.Some?
    ensures t.Some? ==> t.value == ToDisplay(w.current.value.temperature.value, u)
  {
    if w.current.Some? && w.current.value.temperature.Some?
    then Some(ToDisplay(w.current.value.temperature.value, u)) else None
  }

  function CurrentWind(w: Payload): (v: Option<real>)
    ensures v.Some? <==> w.current.Some? && w.current.value.windspeed.Some?
    ensures v.Some? ==> v.value == w.current.value.windspeed.value
  {
    if w.current.Some? then w.current.value.windspeed else None
  }

  /** The rain shown is the hourly amount at the first index of the current timestamp,
      0 when that amount is missing. */
  lemma RainIsHourlyAmountAtNow(prev: Readings, w: Payload, u: Unit, times: seq<string>, p: seq<Option<real>>, i: nat)
    requires w.hourly == Some(Hourly(Some(times), Some(p)))
    requires CurrentTime(w).Some? && i < |times| && times[i] == CurrentTime(w).value
    requires forall j :: 0 <= j < i ==> times[j] != CurrentTime(w).value
    ensures ShowCurrent(prev, w, u).readings.rain == Some(if i < |p| && p[i].Some? then p[i].value else 0.0)
  {
  }

  /** `w.daily.time`, `temperature_2m_max`, `temperature_2m_min` and
      `precipitation_sum` as the chart reads them; any missing one throws. */
  function DailyOf(w: Payload): (r: Result<Chart.Daily, TypeError>)
    ensures r.Ok? <==> (w.daily.Some? && w.daily.value.time.Some? && w.daily.value.maxC.Some?
      && w.daily.value.minC.Some? && w.daily.value.precipSum.Some?)
    ensures r.Ok? ==> r.value == Chart.Daily(w.daily.value.time.value, w.daily.value.maxC.value,
      w.daily.value.minC.value, w.daily.value.precipSum.value)
  {
    match w.daily
    case None => Err(TypeError)
    case Some(d) =>
      if d.time.Some? && d.maxC.Some? && d.minC.Some? && d.precipSum.Some?
      then Ok(Chart.Daily(d.time.value, d.maxC.value, d.minC.value, d.precipSum.value))
      else Err(TypeError)
  }
}
